=== FILE: README.md ===
# Login-Assessment session manager and page logic, in Dafny

This project models the logic of a single-page authentication front end.
The front end has a login page, a protected profile page and a React context
that keeps a bearer token in local storage.

- `AuthContext` (`auth_context.dfy`) is the session manager. The session is
  `{token, user, loading, isAuthenticated, storedToken}`, where `storedToken`
  is the value under the `authToken` storage key. The module covers:
  - the initial state read from storage;
  - the effect that keeps `isAuthenticated` and storage in step with `token`;
  - `register`, `login`, `logout` and `fetchProfile`, each a pure transition.

  Each transition takes the current session and an abstract response
  `Outcome` (`Ok`, `HttpErr`, `BodyUnparseable` or `Thrown`). It returns the
  session after the operation's `finally` together with the uniform
  `Success(data) | Failure(error)` result. A two-state machine
  (`Anonymous`/`Authenticated`, keyed on token truthiness) is stated as a
  separate table, and every operation is proved to follow it.
- `LoginValidation` (`login_validation.dfy`) models `validateForm` and the email
  pattern `^[^\s@]+@[^\s@]+\.[^\s@]+$`. The pattern is written twice: once as
  a scan (`ValidEmail`) and once as the regular expression's concatenation of
  parts (`MatchesEmailRegex`). A lemma proves the two accept the same strings.
- `LoginPage` (`login_page.dfy`) covers:
  - `handleChange`, which blanks only the edited field's error;
  - the gate in `handleSubmit`, which calls `login` only when there are no
    validation errors;
  - the choice of alert after `login` answers;
  - the render decision.

  It also proves that a non-blank field error shown on the page is never
  stale.
- `ProfilePage` (`profile_page.dfy`) covers:
  - the effect's redirect/fetch decision and the render decision;
  - `handleLogout`;
  - the "N/A" fallback for missing timestamps and the user-id row;
  - the avatar initials.

  The initials are modelled as JavaScript computes them (`split(" ")`, first
  character of each piece, `join("")`, upper-case). A lemma proves they equal
  the upper-cased characters at the word starts of the name.
- `Js` (`js.dfy`) holds the JavaScript semantics the rest depends on:
  - truthiness of nullable strings;
  - the `\s` / `trim()` whitespace set (ASCII and Unicode spaces);
  - `length` in UTF-16 code units;
  - ASCII upper-casing.

Three behaviours of the code shape the model:

- A successful login or register whose payload carries an empty or missing
  token returns `Success`, but the session is left (or stays) `Anonymous`. `NextPhase`
  records the behaviour the code has.
- An unparseable response body is not replaced by the generic fallback
  message. The error thrown by `response.json()` is what reaches the caller,
  so `Failure` carries the parse error's own message.
- "Authenticated" means the token is truthy, not merely non-null. An empty
  token is anonymous, and an empty stored value initialises the token to null.

## Model

| member | source | states |
|---|---|---|
| AuthContext.Seed | src/context/AuthContext.jsx:6-9 | the first render holds a token only when the stored value is truthy (an empty stored value becomes null), `isAuthenticated` is that token's truthiness, and there is no user and no loading |
| AuthContext.SyncEffect | src/context/AuthContext.jsx:11-20 | after the token effect, `isAuthenticated` is the token's truthiness and storage holds the token exactly when it is truthy, with token, user and loading untouched |
| AuthContext.Mount | src/context/AuthContext.jsx:7-20 | after mounting, a truthy stored token is kept in state and storage and authenticates; anything else leaves token and storage empty and unauthenticated |
| AuthContext.SetToken | src/context/AuthContext.jsx:11-20 | setting the token changes only the token and keeps the storage/authentication invariant, including when the value is unchanged and the effect does not re-run |
| AuthContext.Register | src/context/AuthContext.jsx:22-49 | on `Ok` the token and user become the payload's and the result is `Success(payload)`; on any failure the session is unchanged except `loading`, and the error is the body's message, else "Registration failed", or the parse or network error's message; `loading` ends false and the invariant is kept |
| AuthContext.Login | src/context/AuthContext.jsx:51-78 | the same contract as register, against the login fallback "Login failed" |
| AuthContext.Logout | src/context/AuthContext.jsx:80-84 | token and user become null and `isAuthenticated` false, `loading` is untouched, and the invariant is kept |
| AuthContext.LogoutIdempotent | src/context/AuthContext.jsx:80-84 | logging out twice gives the same session as logging out once |
| AuthContext.ProfileRequest | src/context/AuthContext.jsx:86-102 | a profile request is issued exactly when the token is truthy, and its `Authorization` header is `Bearer ` followed by the token |
| AuthContext.FetchProfile | src/context/AuthContext.jsx:86-122 | a falsy token gives `Failure("No token available")` with no state change at all. Otherwise: `Ok` replaces only the user; a 401 (body parsed or not) clears token and user; any other failure changes nothing but `loading`. Messages follow the register rule with fallback "Failed to fetch profile". `loading` ends false and the invariant is kept |
| AuthContext.FetchProfileWithoutTokenIgnoresOutcome | src/context/AuthContext.jsx:86-89 | without a token, every response outcome gives the same step and no request is built: nothing is consumed |
| AuthContext.ApplyFollowsStateTable | src/context/AuthContext.jsx:22-122 | from a synchronised session, every operation moves the phase as the two-state table says and keeps the invariant, so `isAuthenticated` reports the new phase |
| AuthContext.OnlyLogoutOrUnauthorizedEndsSession | src/context/AuthContext.jsx:104-111 | an authenticated session becomes anonymous only by logout, a 401 profile fetch, or a successful login/register that returned no usable token |
| Js.Trim | src/pages/Login.jsx:12 | `trim()` yields the empty string exactly when the text is all whitespace |
| Js.Utf16Length | src/pages/Login.jsx:20 | `length` counts between one and two units per character and is zero only for the empty string |
| Js.UpperAsciiString | src/pages/Profile.jsx:63 | upper-casing keeps the length and maps each ASCII lower-case letter to its capital, leaving other characters alone |
| LoginValidation.ValidEmailMatchesRegex | src/pages/Login.jsx:14 | the scan accepts a string exactly when `^[^\s@]+@[^\s@]+\.[^\s@]+$` matches it |
| LoginValidation.PaddedEmailRejected | src/pages/Login.jsx:14-15 | an address with leading or trailing whitespace is never accepted |
| LoginValidation.EmailExamples | src/pages/Login.jsx:14-15 | "a@b.com" is accepted and "bademail" is rejected |
| LoginValidation.BlankEmailInvalid | src/pages/Login.jsx:12-15 | a blank address also fails the pattern, so the "required" branch never hides a valid address |
| LoginValidation.EmailError | src/pages/Login.jsx:12-16 | there is no email error exactly when the pattern accepts; a blank address gets "Email is required" and any other rejected one "Please enter a valid email address" |
| LoginValidation.PasswordError | src/pages/Login.jsx:18-22 | there is no password error exactly when the length is at least 6; empty gets "Password is required", and non-empty but shorter gets "Password must be at least 6 characters" |
| LoginValidation.ValidateForm | src/pages/Login.jsx:9-25 | each key is present exactly when its field fails, with the message above, and the map is empty exactly when both fields pass |
| LoginValidation.ValidateFormFieldsIndependent | src/pages/Login.jsx:9-25 | a field's entry depends only on that field's value |
| LoginValidation.ValidateFormEmptyExample | src/pages/Login.jsx:9-25 | an empty form gets "Email is required" and "Password is required" |
| LoginValidation.ValidateFormInvalidExample | src/pages/Login.jsx:9-25 | "bademail" with "abc" gets the invalid-address and too-short messages |
| LoginValidation.ValidateFormValidExample | src/pages/Login.jsx:9-25 | "a@b.com" with "secret" gets no errors |
| LoginPage.HandleChange | src/pages/Login.jsx:42-55 | editing a field stores its value and blanks that field's error if it has one; the other field, its error, the set of error keys and the alert are unchanged |
| LoginPage.AlertFor | src/pages/Login.jsx:68-83 | success shows the success message; failure shows `result.error` when non-empty and the fixed fallback text otherwise; the message is never empty, so `Alert` never suppresses it |
| LoginPage.HandleSubmit | src/pages/Login.jsx:57-84 | `login` is called with the form's values exactly when `validateForm` finds nothing: the address matches the pattern and the password has at least 6 UTF-16 units. Otherwise each failing field's message is stored and session, alert and navigation are untouched. When it is called, the stored errors stay as they were, the session is login's, the alert is chosen from its result, and navigation to `/profile` is scheduled exactly on success |
| LoginPage.SuccessfulLoginLeavesPage | src/pages/Login.jsx:37-40 | after a valid submission, once the token effect has run, a login that succeeds with a truthy token leaves the page redirecting to the profile and rendering nothing, so the success alert is not drawn from then on; a failed login keeps the form on screen with an error alert |
| LoginPage.InitialErrorsCurrent | src/pages/Login.jsx:28-32 | the empty initial page has no stale error |
| LoginPage.HandleChangeKeepsErrorsCurrent | src/pages/Login.jsx:42-55 | after an edit, every non-blank stored error is still the one validation gives for its field's current value |
| LoginPage.HandleSubmitKeepsErrorsCurrent | src/pages/Login.jsx:60-66 | a submission keeps every non-blank stored error current |
| LoginPage.NoFieldErrorWhenLoginCalled | src/pages/Login.jsx:57-66 | when `login` is called, every stored field error has been blanked |
| LoginPage.RenderLogin | src/pages/Login.jsx:37-88 | an authenticated session redirects to `/profile` and renders nothing; otherwise loading shows only the spinner, and the form shows when not loading |
| ProfilePage.ProfileEffect | src/pages/Profile.jsx:12-21 | the effect navigates to `/login` exactly when not authenticated; it calls `fetchProfile` exactly when authenticated with no user and a truthy token |
| ProfilePage.EffectFetchSettles | src/pages/Profile.jsx:18-20 | a fetch the effect triggers always sends a bearer token; on success the effect then does nothing more, on 401 it sends the visitor to `/login`, and after any other failure the page stays on its spinner with the fetch still wanted |
| ProfilePage.SyncedEffectFetchesWithoutUser | src/pages/Profile.jsx:18-20 | on a synchronised session the effect fetches exactly when authenticated and no user is loaded |
| ProfilePage.NoRedirectLoop | src/pages/Profile.jsx:12-16 | for every session the login page redirects to the profile exactly when the profile page does not redirect to login; on a synchronised session that is exactly when the token is truthy |
| ProfilePage.RenderProfile | src/pages/Profile.jsx:28-34 | unauthenticated renders nothing; loading or no user shows the spinner; otherwise the profile card shows the session's user |
| ProfilePage.HandleLogout | src/pages/Profile.jsx:23-26 | logout happens before navigating to `/login`, so the login page sees an anonymous session and does not bounce back, and after a logout from the profile card it shows its form; the profile page renders nothing and redirects |
| ProfilePage.DisplayTimestamp | src/pages/Profile.jsx:84-94 | a missing or empty `createdAt`/`updatedAt` shows "N/A"; a present one shows the formatted date |
| ProfilePage.ShowsUserId | src/pages/Profile.jsx:97-102 | the user-id row appears exactly for a non-empty `_id` |
| ProfilePage.FetchedUserFillsCard | src/pages/Profile.jsx:84-102 | after a successful profile fetch the card shows the fetched user, with the id row exactly for a truthy `_id`, and each date cell shows "N/A" for a missing or empty timestamp and the formatted date otherwise |
| ProfilePage.Split | src/pages/Profile.jsx:59-61 | `split(" ")` yields at least one piece and no piece contains a space |
| ProfilePage.JoinSplit | src/pages/Profile.jsx:59-61 | joining the pieces with single spaces gives the name back, so the split loses nothing |
| ProfilePage.Initials | src/pages/Profile.jsx:59-63 | the initials are no longer than the number of pieces |
| ProfilePage.InitialsAreWordStarts | src/pages/Profile.jsx:59-63 | the initials are, in order, the upper-cased first characters of the words: one per non-empty piece, and nothing for the empty pieces that repeated, leading or trailing spaces produce |
| ProfilePage.InitialsExample | src/pages/Profile.jsx:59-63 | "jo doe" gives "JD" |
| ProfilePage.InitialsOfSpacedNameExample | src/pages/Profile.jsx:59-63 | " a  b " gives "AB": empty pieces contribute nothing |

## Left out

- Network, HTTP and JSON: `fetch`, the endpoint URLs, the request bodies and
  JSON parsing are replaced by the `Outcome` parameter of each transition.
  The credentials passed to `register`/`login` only shape the request, so they
  do not appear. An error body that parses to `null` makes reading `.message`
  throw a `TypeError`; the model counts that as `BodyUnparseable`. Any other
  body without a `message` property is `HttpErr(_, None)`.
- `localStorage` is the `storedToken` field of the session. It is not a
  separate store.
- `console.error` calls.
- React scheduling: render timing, batching of state updates, and when
  effects re-run. `ProfileEffect` is the decision one run of the effect makes.
  React re-runs the effect only when a dependency changes, so the model does
  not claim it runs after every render.
- The `useCallback` closure in `fetchProfile` can capture a stale `token`.
  The model always reads the current token.
- Overlapping asynchronous calls and last-write-wins races. The source gives
  no coordination to verify, and each operation is modelled as completing
  atomically. The in-flight state (`loading = true`) is not a separate step.
- The 1.5-second `setTimeout` before navigating to `/profile`. The model
  records only that the navigation is scheduled. With a truthy token the
  page's own redirect takes over as soon as the token effect has run
  (`SuccessfulLoginLeavesPage`).
- SuccessfulLoginLeavesPage: speaks of the session after the token effect has
  run. Before that, one render still has `isAuthenticated` false and draws the
  form with the success alert; render timing is not modelled.
- `formatDate`/`toLocaleDateString`: locale formatting is passed in as a
  function parameter.
- The alert's close button and the presentation components (`Alert`,
  `FormInput`, `LoadingSpinner`), the route table in `src/App.jsx` and the
  `useAuth` outside-provider guard. A registration page is not part of this
  model.
- FetchProfile: the `Ok` payload is always a user record. A `200` whose body
  is literally `null` would set `user` to null in the source.
- Initials: upper-casing is restricted to ASCII. JavaScript's full Unicode
  `toUpperCase` can also change the length (for example "ß" becomes "SS").
  A piece that starts with a character above U+FFFF contributes the whole
  character; in the source `n[0]` is a lone surrogate.

=== FILE: auth_context.dfy ===
/** The session manager of the authentication context: the session record,
    the effect that keeps `isAuthenticated` and the stored token in step with
    `token`, and `register`, `login`, `logout` and `fetchProfile` as pure
    transitions over an abstract response outcome instead of the network. */
module AuthContext {
  import opened Js

  /** The profile record the API returns; the profile page reads these fields. */
  datatype User = User(
    id: Option<string>,
    name: string,
    email: string,
    role: string,
    createdAt: Option<string>,
    updatedAt: Option<string>)

  /** The provider's state. `storedToken` mirrors the `authToken` storage key. */
  datatype Session = Session(
    token: Option<string>,
    user: Option<User>,
    loading: bool,
    isAuthenticated: bool,
    storedToken: Option<string>)

  /** What `await fetch(...)` and the following `response.json()` produced. */
  datatype Outcome<P> =
      /** 2xx status and a parsed body. */
    | Ok(payload: P)
      /** a parsed error body, with its `message` if any. The status the
          source sees here is never 2xx, but the model admits any status. */
    | HttpErr(status: int, bodyMessage: Option<string>)
      /** reading the body threw (for any status) with this message. */
    | BodyUnparseable(status: int, parseError: string)
      /** `fetch` itself rejected with this message; no status was received. */
    | Thrown(message: string)

  /** The success body of the register and login endpoints. */
  datatype AuthPayload = AuthPayload(token: Option<string>, user: Option<User>)

  /** The uniform `{success, data?, error?}` shape every operation returns. */
  datatype AuthResult<D> = Success(data: D) | Failure(error: string)

  /** A completed operation: the session after its `finally` and its result. */
  datatype Step<D> = Step(session: Session, result: AuthResult<D>)

  const RegisterFallback := "Registration failed"
  const LoginFallback := "Login failed"
  const ProfileFallback := "Failed to fetch profile"
  const NoTokenMessage := "No token available"
  const UnauthorizedStatus := 401

  /** The effect keyed on `token` has run since `token` last changed:
      `isAuthenticated` is the token's truthiness and storage holds the token
      exactly when it is truthy. */
  predicate Synced(s: Session) {
    && s.isAuthenticated == Truthy(s.token)
    && s.storedToken == (if Truthy(s.token) then s.token else None)
  }

  /** The first render: `token` read from storage with `|| null`, and
      `isAuthenticated` seeded with `!!token`; storage is not yet touched. */
  function Seed(stored: Option<string>): (s: Session)
    ensures s.token.Some? <==> Truthy(stored)
    ensures s.token.Some? ==> s.token == stored
    ensures s.isAuthenticated == Truthy(s.token)
    ensures s.user == None && !s.loading && s.storedToken == stored
  {
    Session(
      token := if Truthy(stored) then stored else None,
      user := None,
      loading := false,
      isAuthenticated := Truthy(stored),
      storedToken := stored)
  }

  /** The effect on `token`: write or remove the storage key and set
      `isAuthenticated` accordingly. */
  function SyncEffect(s: Session): (r: Session)
    ensures Synced(r)
    ensures r.token == s.token && r.user == s.user && r.loading == s.loading
  {
    if Truthy(s.token) then s.(storedToken := s.token, isAuthenticated := true)
    else s.(storedToken := None, isAuthenticated := false)
  }

  /** The provider after mounting: seeded from storage, then the effect has run. */
  function Mount(stored: Option<string>): (s: Session)
    ensures Synced(s)
    ensures s.user == None && !s.loading
    ensures Truthy(stored) ==> s.token == stored && s.storedToken == stored && s.isAuthenticated
    ensures !Truthy(stored) ==> s.token == None && s.storedToken == None && !s.isAuthenticated
  {
    SyncEffect(Seed(stored))
  }

  /** `setToken(t)`: the effect re-runs only when the value actually changes. */
  function SetToken(s: Session, t: Option<string>): (r: Session)
    ensures r.token == t && r.user == s.user && r.loading == s.loading
    ensures Synced(s) ==> Synced(r)
  {
    if t == s.token then s else SyncEffect(s.(token := t))
  }

  /** The status of a response that was received but not accepted, if any. */
  predicate Unauthorized<P>(o: Outcome<P>) {
    (o.HttpErr? || o.BodyUnparseable?) && o.status == UnauthorizedStatus
  }

  /** The message of the error a failed outcome is converted into: the
      body's `message` or the fallback, the parse error, or the rejection. */
  function FailureMessage<P>(o: Outcome<P>, fallback: string): string
    requires !o.Ok?
  {
    match o
    case HttpErr(_, m) => OrElse(m, fallback)
    case BodyUnparseable(_, e) => e
    case Thrown(e) => e
  }

  /** The shared shape of `register` and `login`. */
  function Authenticate(s: Session, o: Outcome<AuthPayload>, fallback: string): (r: Step<AuthPayload>)
    ensures !r.session.loading
    ensures Synced(s) ==> Synced(r.session)
    ensures o.Ok? ==> r.session.token == o.payload.token && r.session.user == o.payload.user
    ensures o.Ok? ==> r.result == Success(o.payload)
    ensures !o.Ok? ==> r.session == s.(loading := false)
    ensures o.HttpErr? ==> r.result == Failure(if Truthy(o.bodyMessage) then o.bodyMessage.value else fallback)
    ensures o.BodyUnparseable? ==> r.result == Failure(o.parseError)
    ensures o.Thrown? ==> r.result == Failure(o.message)
  {
    match o
    case Ok(p) => Step(SetToken(s, p.token).(user := p.user, loading := false), Success(p))
    case _ => Step(s.(loading := false), Failure(FailureMessage(o, fallback)))
  }

  /** `register(name, email, password)`; the credentials only shape the
      request, so the outcome stands for the server's answer to them. */
  function Register(s: Session, o: Outcome<AuthPayload>): (r: Step<AuthPayload>)
    ensures !r.session.loading
    ensures Synced(s) ==> Synced(r.session)
    ensures o.Ok? ==> r.session.token == o.payload.token && r.session.user == o.payload.user
    ensures o.Ok? ==> r.result == Success(o.payload)
    ensures !o.Ok? ==> r.session == s.(loading := false)
    ensures o.HttpErr? ==> r.result == Failure(if Truthy(o.bodyMessage) then o.bodyMessage.value else "Registration failed")
    ensures o.BodyUnparseable? ==> r.result == Failure(o.parseError)
    ensures o.Thrown? ==> r.result == Failure(o.message)
  {
    Authenticate(s, o, RegisterFallback)
  }

  /** `login(email, password)`. */
  function Login(s: Session, o: Outcome<AuthPayload>): (r: Step<AuthPayload>)
    ensures !r.session.loading
    ensures Synced(s) ==> Synced(r.session)
    ensures o.Ok? ==> r.session.token == o.payload.token && r.session.user == o.payload.user
    ensures o.Ok? ==> r.result == Success(o.payload)
    ensures !o.Ok? ==> r.session == s.(loading := false)
    ensures o.HttpErr? ==> r.result == Failure(if Truthy(o.bodyMessage) then o.bodyMessage.value else "Login failed")
    ensures o.BodyUnparseable? ==> r.result == Failure(o.parseError)
    ensures o.Thrown? ==> r.result == Failure(o.message)
  {
    Authenticate(s, o, LoginFallback)
  }

  /** `logout()`: synchronous, no request; `loading` is not touched. */
  function Logout(s: Session): (r: Session)
    ensures r.token == None && r.user == None && !r.isAuthenticated
    ensures r.loading == s.loading
    ensures Synced(s) ==> Synced(r)
  {
    SetToken(s, None).(user := None, isAuthenticated := false)
  }

  /** The request `fetchProfile` issues, carrying `Authorization: Bearer <token>`;
      none when the token is falsy. */
  function ProfileRequest(s: Session): (header: Option<string>)
    ensures header.Some? <==> Truthy(s.token)
    ensures header.Some? ==> |header.value| > 7 && header.value[..7] == "Bearer " && header.value[7..] == s.token.value
  {
    if Truthy(s.token) then Some("Bearer " + s.token.value) else None
  }

  /** `fetchProfile()`. With a falsy token it returns at once, before
      `setLoading(true)`, and the outcome is never consulted. A 401 clears
      the session before the body is read, so it does so even when the body
      cannot be parsed. */
  function FetchProfile(s: Session, o: Outcome<User>): (r: Step<User>)
    ensures !Truthy(s.token) ==> r == Step(s, Failure(NoTokenMessage))
    ensures Truthy(s.token) ==> !r.session.loading
    ensures Synced(s) ==> Synced(r.session)
    ensures Truthy(s.token) && o.Ok? ==>
      r.session == s.(user := Some(o.payload), loading := false) && r.result == Success(o.payload)
    ensures Truthy(s.token) && Unauthorized(o) ==> r.session.token == None && r.session.user == None
    ensures Truthy(s.token) && !o.Ok? && !Unauthorized(o) ==> r.session == s.(loading := false)
    ensures Truthy(s.token) && o.HttpErr? ==>
      r.result == Failure(if Truthy(o.bodyMessage) then o.bodyMessage.value else "Failed to fetch profile")
    ensures Truthy(s.token) && o.BodyUnparseable? ==> r.result == Failure(o.parseError)
    ensures Truthy(s.token) && o.Thrown? ==> r.result == Failure(o.message)
  {
    if !Truthy(s.token) then
      Step(s, Failure(NoTokenMessage))
    else
      match o
      case Ok(u) => Step(s.(user := Some(u), loading := false), Success(u))
      case _ =>
        var kept := if Unauthorized(o) then SetToken(s, None).(user := None) else s;
        Step(kept.(loading := false), Failure(FailureMessage(o, ProfileFallback)))
  }

  /** Without a token `fetchProfile` consumes no response: every outcome
      gives the same step. */
  lemma FetchProfileWithoutTokenIgnoresOutcome(s: Session, o1: Outcome<User>, o2: Outcome<User>)
    requires !Truthy(s.token)
    ensures FetchProfile(s, o1) == FetchProfile(s, o2)
    ensures ProfileRequest(s) == None
  {
  }

  /** Logging out twice is logging out once. */
  lemma LogoutIdempotent(s: Session)
    ensures Logout(Logout(s)) == Logout(s)
  {
  }

  /** The two states of the session machine, keyed solely on the token. */
  datatype Phase = Anonymous | Authenticated

  function PhaseOf(s: Session): Phase {
    if Truthy(s.token) then Authenticated else Anonymous
  }

  /** The operations the context exposes, each with the outcome it meets. */
  datatype Op =
    | RegisterOp(authOutcome: Outcome<AuthPayload>)
    | LoginOp(authOutcome: Outcome<AuthPayload>)
    | LogoutOp
    | FetchProfileOp(profileOutcome: Outcome<User>)

  function Apply(s: Session, op: Op): Session {
    match op
    case RegisterOp(o) => Register(s, o).session
    case LoginOp(o) => Login(s, o).session
    case LogoutOp => Logout(s)
    case FetchProfileOp(o) => FetchProfile(s, o).session
  }

  /** The state table: a successful register or login enters the phase its
      returned token implies, logout and an unauthorized profile fetch leave
      `Authenticated`, and everything else is a self-loop. */
  function NextPhase(before: Phase, op: Op): Phase {
    match op
    case RegisterOp(o) =>
      if o.Ok? then (if Truthy(o.payload.token) then Authenticated else Anonymous) else before
    case LoginOp(o) =>
      if o.Ok? then (if Truthy(o.payload.token) then Authenticated else Anonymous) else before
    case LogoutOp => Anonymous
    case FetchProfileOp(o) =>
      if before == Authenticated && Unauthorized(o) then Anonymous else before
  }

  /** Every operation moves the session along the state table, and the
      synchronisation invariant survives it, so `isAuthenticated` always
      reports the phase. */
  lemma ApplyFollowsStateTable(s: Session, op: Op)
    requires Synced(s)
    ensures PhaseOf(Apply(s, op)) == NextPhase(PhaseOf(s), op)
    ensures Synced(Apply(s, op))
    ensures Apply(s, op).isAuthenticated <==> NextPhase(PhaseOf(s), op) == Authenticated
  {
  }

  /** Only logout and an unauthorized profile fetch end a session: a failed
      login or register, and any other failed fetch, keep token and user. */
  lemma OnlyLogoutOrUnauthorizedEndsSession(s: Session, op: Op)
    requires Synced(s) && PhaseOf(s) == Authenticated
    requires PhaseOf(Apply(s, op)) == Anonymous
    ensures op.LogoutOp?
      || (op.FetchProfileOp? && Unauthorized(op.profileOutcome))
      || ((op.LoginOp? || op.RegisterOp?) && op.authOutcome.Ok? && !Truthy(op.authOutcome.payload.token))
  {
  }
}

=== FILE: js.dfy ===
/** The JavaScript value semantics the session manager and the pages rely on:
    nullable strings and their truthiness, the `\s` whitespace class (which
    `String.prototype.trim` shares), `String.prototype.length` in UTF-16 code
    units, and upper-casing restricted to ASCII. */
module Js {

  /** A value the source may hold as `null` or `undefined`. */
  datatype Option<+T> = None | Some(value: T)

  /** Truthiness of a nullable string: `null`, `undefined` and `""` are falsy. */
  predicate Truthy(s: Option<string>) {
    s.Some? && s.value != ""
  }

  /** `s || fallback` on a nullable string. */
  function OrElse(s: Option<string>, fallback: string): string {
    if Truthy(s) then s.value else fallback
  }

  /** The characters above ASCII that `\s` matches and `trim()` removes. */
  const UnicodeSpaces: set<char> := {
    '\U{00A0}', '\U{1680}',
    '\U{2000}', '\U{2001}', '\U{2002}', '\U{2003}', '\U{2004}', '\U{2005}',
    '\U{2006}', '\U{2007}', '\U{2008}', '\U{2009}', '\U{200A}',
    '\U{2028}', '\U{2029}', '\U{202F}', '\U{205F}', '\U{3000}', '\U{FEFF}'
  }

  /** The ECMAScript WhiteSpace and LineTerminator characters: in ASCII the
      space and tab, line feed, vertical tab, form feed and carriage return. */
  predicate IsSpace(c: char) {
    if c as int < 0x80 then c == ' ' || ('\t' <= c <= '\r') else c in UnicodeSpaces
  }

  /** Every character is whitespace (the empty string included). */
  predicate Blank(s: string) {
    forall i | 0 <= i < |s| :: IsSpace(s[i])
  }

  /** Leading whitespace removed: a suffix of `s` whose dropped prefix is all
      whitespace and which does not itself start with whitespace. */
  function TrimStart(s: string): (r: string)
    ensures |r| <= |s| && r == s[|s| - |r|..]
    ensures forall i | 0 <= i < |s| - |r| :: IsSpace(s[i])
    ensures r == [] || !IsSpace(r[0])
  {
    if |s| > 0 && IsSpace(s[0]) then TrimStart(s[1..]) else s
  }

  /** Trailing whitespace removed: a prefix of `s` whose dropped suffix is all
      whitespace and which does not itself end with whitespace. */
  function TrimEnd(s: string): (r: string)
    ensures |r| <= |s| && r == s[..|r|]
    ensures forall i | |r| <= i < |s| :: IsSpace(s[i])
    ensures r == [] || !IsSpace(r[|r| - 1])
  {
    if |s| > 0 && IsSpace(s[|s| - 1]) then TrimEnd(s[..|s| - 1]) else s
  }

  /** `String.prototype.trim`; `!s.trim()` holds exactly for the strings
      made of whitespace only. */
  function Trim(s: string): (r: string)
    ensures r == "" <==> Blank(s)
  {
    TrimEnd(TrimStart(s))
  }

  /** Number of UTF-16 code units of one character. */
  function Utf16Units(c: char): nat {
    if c as int > 0xFFFF then 2 else 1
  }

  /** `String.prototype.length`: characters above U+FFFF count twice. */
  function Utf16Length(s: string): (n: nat)
    ensures |s| <= n <= 2 * |s|
    ensures n == 0 <==> s == ""
  {
    if |s| == 0 then 0 else Utf16Units(s[0]) + Utf16Length(s[1..])
  }

  /** `toUpperCase` on one character, restricted to ASCII letters. */
  function UpperAscii(c: char): (u: char)
    ensures 'a' <= c <= 'z' ==> 'A' <= u <= 'Z' && u as int == c as int - 32
    ensures !('a' <= c <= 'z') ==> u == c
  {
    if 'a' <= c <= 'z' then (c as int - 32) as char else c
  }

  /** `toUpperCase` on a string, character by character. */
  function UpperAsciiString(s: string): (r: string)
    ensures |r| == |s|
    ensures forall i | 0 <= i < |s| :: r[i] == UpperAscii(s[i])
  {
    seq(|s|, i requires 0 <= i < |s| => UpperAscii(s[i]))
  }
}

=== FILE: login_page.dfy ===
/** The login page's logic: the per-field error clearing of `handleChange`,
    the validation gate and alert choice of `handleSubmit`, and the render
    decision. */
module LoginPage {
  import opened Js
  import opened LoginValidation
  import AuthContext

  datatype AlertKind = SuccessAlert | ErrorAlert

  datatype Alert = Alert(kind: AlertKind, message: string)

  /** The page's own state: `formData`, `errors` and `alert`. */
  datatype Page = Page(form: Form, errors: Errors, alert: Option<Alert>)

  const InitialPage := Page(Form("", ""), map[], None)

  const LoginSucceeded := "Login successful! Redirecting to profile..."
  const LoginFailedFallback := "Login failed. Please check your credentials and try again."
  const ProfileRoute := "/profile"

  function WithValue(f: Form, field: Field, value: string): Form {
    match field
    case Email => f.(email := value)
    case Password => f.(password := value)
  }

  /** `handleChange`: store the edited value and blank that field's error if
      it shows one; no other field and no other error changes. */
  function HandleChange(p: Page, field: Field, value: string): (r: Page)
    ensures Value(r.form, field) == value
    ensures forall g: Field | g != field :: Value(r.form, g) == Value(p.form, g)
    ensures r.errors.Keys == p.errors.Keys
    ensures forall g | g in p.errors && g != field :: r.errors[g] == p.errors[g]
    ensures field in p.errors ==> r.errors[field] == ""
    ensures r.alert == p.alert
  {
    var errors := if field in p.errors && p.errors[field] != "" then p.errors[field := ""] else p.errors;
    p.(form := WithValue(p.form, field, value), errors := errors)
  }

  /** The alert shown once `login` has answered. The alert component renders
      nothing for an empty message, so the fallback keeps a failure visible. */
  function AlertFor<D>(result: AuthContext.AuthResult<D>): (a: Alert)
    ensures a.message != ""
    ensures a.kind == SuccessAlert <==> result.Success?
    ensures result.Success? ==> a.message == LoginSucceeded
    ensures result.Failure? && result.error != "" ==> a.message == result.error
    ensures result.Failure? && result.error == "" ==> a.message == LoginFailedFallback
  {
    match result
    case Success(_) => Alert(SuccessAlert, LoginSucceeded)
    case Failure(e) => Alert(ErrorAlert, if e != "" then e else LoginFailedFallback)
  }

  /** What one submission did: the page and session afterwards, the
      credentials `login` was called with (if it was), and the route the
      delayed navigation goes to (if one was scheduled). */
  datatype Submission = Submission(
    page: Page,
    session: AuthContext.Session,
    loginCall: Option<Form>,
    navigateLater: Option<string>)

  /** `handleSubmit`: a non-empty `validateForm` result is stored and nothing
      else happens; otherwise `login` runs with the form's values, meeting
      outcome `o`, and its result picks the alert and the navigation. */
  function HandleSubmit(p: Page, s: AuthContext.Session, o: AuthContext.Outcome<AuthContext.AuthPayload>): (r: Submission)
    ensures r.loginCall.Some? <==> ValidEmail(p.form.email) && Utf16Length(p.form.password) >= MinPasswordLength
    ensures r.loginCall.Some? ==> r.loginCall.value == p.form
    ensures r.page.form == p.form
    ensures r.loginCall.None? ==> r.session == s && r.page.alert == p.alert && r.navigateLater == None
    ensures r.loginCall.None? ==> (Email in r.page.errors <==> !ValidEmail(p.form.email))
    ensures r.loginCall.None? && Email in r.page.errors ==>
      r.page.errors[Email] == (if Blank(p.form.email) then EmailRequired else EmailInvalid)
    ensures r.loginCall.None? ==> (Password in r.page.errors <==> Utf16Length(p.form.password) < MinPasswordLength)
    ensures r.loginCall.None? && Password in r.page.errors ==>
      r.page.errors[Password] == (if p.form.password == "" then PasswordRequired else PasswordTooShort)
    ensures r.loginCall.Some? ==> r.session == AuthContext.Login(s, o).session
    ensures r.loginCall.Some? ==> r.page.errors == p.errors
    ensures r.loginCall.Some? ==> r.page.alert == Some(AlertFor(AuthContext.Login(s, o).result))
    ensures r.navigateLater.Some? <==> r.loginCall.Some? && o.Ok?
    ensures r.navigateLater.Some? ==> r.navigateLater.value == ProfileRoute
  {
    var errors := ValidateForm(p.form);
    if |errors| > 0 then
      Submission(p.(errors := errors), s, None, None)
    else
      var step := AuthContext.Login(s, o);
      Submission(
        p.(alert := Some(AlertFor(step.result))),
        step.session,
        Some(p.form),
        if step.result.Success? then Some(ProfileRoute) else None)
  }

  /** Once the token effect has completed the step, a login that succeeded
      with a truthy token has authenticated the session, and the page's
      authenticated branch redirects and draws nothing, so the success alert
      is not rendered from then on. A failed login keeps the visitor
      anonymous, so its alert appears beside the form. */
  lemma SuccessfulLoginLeavesPage(p: Page, s: AuthContext.Session, o: AuthContext.Outcome<AuthContext.AuthPayload>)
    requires AuthContext.Synced(s)
    requires ValidEmail(p.form.email) && Utf16Length(p.form.password) >= MinPasswordLength
    ensures o.Ok? && Truthy(o.payload.token) ==>
      RenderLogin(HandleSubmit(p, s, o).session) == RedirectToProfile
    ensures !o.Ok? && !s.isAuthenticated ==>
      RenderLogin(HandleSubmit(p, s, o).session) == LoginFormView
      && HandleSubmit(p, s, o).page.alert.value.kind == ErrorAlert
  {
  }

  /** A field's displayed error is never stale: a non-blank stored error is
      the one `validateForm` gives for the current value of that field. */
  predicate ErrorsCurrent(p: Page) {
    forall f | f in p.errors && p.errors[f] != "" ::
      f in ValidateForm(p.form) && p.errors[f] == ValidateForm(p.form)[f]
  }

  lemma InitialErrorsCurrent()
    ensures ErrorsCurrent(InitialPage)
  {
  }

  lemma HandleChangeKeepsErrorsCurrent(p: Page, field: Field, value: string)
    requires ErrorsCurrent(p)
    ensures ErrorsCurrent(HandleChange(p, field, value))
  {
    var r := HandleChange(p, field, value);
    forall g | g in r.errors && r.errors[g] != ""
      ensures g in ValidateForm(r.form) && r.errors[g] == ValidateForm(r.form)[g]
    {
      assert g != field;
      ValidateFormFieldsIndependent(p.form, r.form, g);
    }
  }

  lemma HandleSubmitKeepsErrorsCurrent(p: Page, s: AuthContext.Session, o: AuthContext.Outcome<AuthContext.AuthPayload>)
    requires ErrorsCurrent(p)
    ensures ErrorsCurrent(HandleSubmit(p, s, o).page)
  {
  }

  /** When `login` is called no field shows an error: every stored error has
      been blanked by an edit, since a surviving one would fail validation. */
  lemma NoFieldErrorWhenLoginCalled(p: Page, s: AuthContext.Session, o: AuthContext.Outcome<AuthContext.AuthPayload>)
    requires ErrorsCurrent(p)
    requires HandleSubmit(p, s, o).loginCall.Some?
    ensures forall f | f in p.errors :: p.errors[f] == ""
  {
  }

  /** What the page renders. */
  datatype LoginView = RedirectToProfile | SigningInSpinner | LoginFormView

  /** Authenticated visitors are sent to the profile and see nothing; while a
      request is in flight only the spinner shows. */
  function RenderLogin(s: AuthContext.Session): (v: LoginView)
    ensures v == RedirectToProfile <==> s.isAuthenticated
    ensures v == SigningInSpinner <==> !s.isAuthenticated && s.loading
    ensures v == LoginFormView <==> !s.isAuthenticated && !s.loading
  {
    if s.isAuthenticated then RedirectToProfile
    else if s.loading then SigningInSpinner
    else LoginFormView
  }
}

=== FILE: login_validation.dfy ===
/** The login form's client-side validation: `validateForm` and the email
    pattern `^[^\s@]+@[^\s@]+\.[^\s@]+$`. */
module LoginValidation {
  import opened Js

  datatype Field = Email | Password

  datatype Form = Form(email: string, password: string)

  /** The `errors` object: a message per field that has one. */
  type Errors = map<Field, string>

  const EmailRequired := "Email is required"
  const EmailInvalid := "Please enter a valid email address"
  const PasswordRequired := "Password is required"
  const PasswordTooShort := "Password must be at least 6 characters"
  const MinPasswordLength := 6

  function Value(f: Form, field: Field): string {
    match field
    case Email => f.email
    case Password => f.password
  }

  /** The character class `[^\s@]`. */
  predicate PatternChar(c: char) {
    !IsSpace(c) && c != '@'
  }

  /** `[^\s@]+` matches the whole of `s`. */
  ghost predicate OneOrMore(s: string) {
    |s| > 0 && forall i | 0 <= i < |s| :: PatternChar(s[i])
  }

  /** The anchored regular expression, read as a concatenation of its parts. */
  ghost predicate MatchesEmailRegex(s: string) {
    exists local: string, host: string, tld: string
      | OneOrMore(local) && OneOrMore(host) && OneOrMore(tld)
      :: s == local + "@" + host + "." + tld
  }

  /** Position of the first occurrence of `c`. */
  function IndexOf(s: string, c: char): (i: nat)
    requires c in s
    ensures i < |s| && s[i] == c && c !in s[..i]
  {
    if s[0] == c then 0 else 1 + IndexOf(s[1..], c)
  }

  /** The email check as a scan: no whitespace anywhere, exactly one `@`
      with something before it, and after it a `.` that is neither the
      first nor the last character. */
  predicate ValidEmail(s: string) {
    && (forall i | 0 <= i < |s| :: !IsSpace(s[i]))
    && '@' in s
    && var at := IndexOf(s, '@');
       && 0 < at
       && '@' !in s[at + 1..]
       && var domain := s[at + 1..];
          |domain| >= 3 && '.' in domain[1..|domain| - 1]
  }

  lemma ValidEmailIsRegex(s: string)
    requires ValidEmail(s)
    ensures MatchesEmailRegex(s)
  {
    var at := IndexOf(s, '@');
    var domain := s[at + 1..];
    var middle := domain[1..|domain| - 1];
    var k := IndexOf(middle, '.') + 1;
    assert domain[k] == '.';
    var local, host, tld := s[..at], domain[..k], domain[k + 1..];
    assert OneOrMore(local) by {
      forall i | 0 <= i < |local|
        ensures PatternChar(local[i])
      {
        assert local[i] == s[i];
        assert local[i] in s[..at];
      }
    }
    assert OneOrMore(host) by {
      forall i | 0 <= i < |host|
        ensures PatternChar(host[i])
      {
        assert host[i] == s[at + 1 + i];
        assert host[i] in domain;
      }
    }
    assert OneOrMore(tld) by {
      forall i | 0 <= i < |tld|
        ensures PatternChar(tld[i])
      {
        assert tld[i] == s[at + 1 + k + 1 + i];
        assert tld[i] in domain;
      }
    }
    assert domain == host + "." + tld;
    assert s == local + "@" + domain;
    assert s == local + "@" + host + "." + tld;
  }

  /** Every character belongs to `[^\s@]`. */
  predicate AllPatternChars(s: string) {
    forall i | 0 <= i < |s| :: PatternChar(s[i])
  }

  lemma ConcatPatternChars(a: string, b: string)
    requires AllPatternChars(a) && AllPatternChars(b)
    ensures AllPatternChars(a + b)
  {
    forall i | 0 <= i < |a + b|
      ensures PatternChar((a + b)[i])
    {
      if i >= |a| {
        assert (a + b)[i] == b[i - |a|];
      }
    }
  }

  /** Joining two `[^\s@]*` runs with an `@` puts the first `@` between them
      and no whitespace anywhere. */
  lemma JoinAtSign(local: string, domain: string)
    requires AllPatternChars(local) && AllPatternChars(domain)
    ensures var s := local + "@" + domain;
      && (forall i | 0 <= i < |s| :: !IsSpace(s[i]))
      && IndexOf(s, '@') == |local|
      && s[|local| + 1..] == domain
  {
    var s := local + "@" + domain;
    var at := |local|;
    assert s[at] == '@';
    assert s[..at] == local;
    assert s[at + 1..] == domain;
    forall i | 0 <= i < |s|
      ensures !IsSpace(s[i])
    {
      if i < at {
        assert s[i] == local[i];
      } else if i > at {
        assert s[i] == domain[i - at - 1];
      }
    }
  }

  lemma RegexIsValidEmail(s: string)
    requires MatchesEmailRegex(s)
    ensures ValidEmail(s)
  {
    var local: string, host: string, tld: string :|
      OneOrMore(local) && OneOrMore(host) && OneOrMore(tld) && s == local + "@" + host + "." + tld;
    var domain := host + "." + tld;
    assert AllPatternChars(".");
    ConcatPatternChars(host, ".");
    ConcatPatternChars(host + ".", tld);
    assert s == local + "@" + domain;
    JoinAtSign(local, domain);
    assert '@' !in domain;
    assert domain[|host|] == '.';
    assert domain[1..|domain| - 1][|host| - 1] == '.';
  }

  /** The scan accepts exactly the strings the regular expression matches. */
  lemma ValidEmailMatchesRegex(s: string)
    ensures ValidEmail(s) <==> MatchesEmailRegex(s)
  {
    if ValidEmail(s) {
      ValidEmailIsRegex(s);
    }
    if MatchesEmailRegex(s) {
      RegexIsValidEmail(s);
    }
  }

  /** Whitespace anywhere, and in particular around the address, is rejected. */
  lemma PaddedEmailRejected(s: string, pad: char)
    requires IsSpace(pad)
    ensures !ValidEmail([pad] + s) && !ValidEmail(s + [pad])
  {
    assert ([pad] + s)[0] == pad;
    assert (s + [pad])[|s|] == pad;
  }

  lemma EmailExamples()
    ensures ValidEmail("a@b.com")
    ensures !ValidEmail("bademail")
  {
    assert IndexOf("a@b.com", '@') == 1;
    assert "a@b.com"[2..] == "b.com";
    assert "b.com"[1..4][0] == '.';
    assert '@' !in "bademail";
  }

  /** A blank address has no `@`, so the pattern rejects it too. */
  lemma BlankEmailInvalid(s: string)
    requires Blank(s)
    ensures !ValidEmail(s)
  {
    if '@' in s {
      var i := IndexOf(s, '@');
      assert IsSpace(s[i]);
    }
  }

  /** The email half of `validateForm`. */
  function EmailError(email: string): (e: Option<string>)
    ensures e.None? <==> ValidEmail(email)
    ensures e.Some? ==> e.value == (if Blank(email) then EmailRequired else EmailInvalid)
  {
    if Trim(email) == "" then
      BlankEmailInvalid(email);
      Some(EmailRequired)
    else if !ValidEmail(email) then Some(EmailInvalid)
    else None
  }

  /** The password half of `validateForm`; `length` counts UTF-16 code units. */
  function PasswordError(password: string): (e: Option<string>)
    ensures e.None? <==> Utf16Length(password) >= MinPasswordLength
    ensures e.Some? ==> e.value == (if password == "" then PasswordRequired else PasswordTooShort)
  {
    if password == "" then Some(PasswordRequired)
    else if Utf16Length(password) < MinPasswordLength then Some(PasswordTooShort)
    else None
  }

  /** `validateForm(data)`: each field's entry is decided by that field alone,
      and the map is empty exactly when both fields pass. */
  function ValidateForm(f: Form): (errors: Errors)
    ensures Email !in errors <==> ValidEmail(f.email)
    ensures Email in errors ==> errors[Email] == (if Blank(f.email) then EmailRequired else EmailInvalid)
    ensures Password !in errors <==> Utf16Length(f.password) >= MinPasswordLength
    ensures Password in errors ==>
      errors[Password] == (if f.password == "" then PasswordRequired else PasswordTooShort)
    ensures errors == map[] <==> ValidEmail(f.email) && Utf16Length(f.password) >= MinPasswordLength
  {
    var e := EmailError(f.email);
    var p := PasswordError(f.password);
    if e.Some? && p.Some? then map[Email := e.value, Password := p.value]
    else if e.Some? then map[Email := e.value]
    else if p.Some? then map[Password := p.value]
    else map[]
  }

  /** Changing one field never changes the other field's entry. */
  lemma ValidateFormFieldsIndependent(f: Form, g: Form, field: Field)
    requires Value(f, field) == Value(g, field)
    ensures field in ValidateForm(f) <==> field in ValidateForm(g)
    ensures field in ValidateForm(f) ==> ValidateForm(f)[field] == ValidateForm(g)[field]
  {
  }

  lemma ValidateFormEmptyExample()
    ensures ValidateForm(Form("", "")) == map[Email := EmailRequired, Password := PasswordRequired]
  {
    assert EmailError("") == Some(EmailRequired);
    assert PasswordError("") == Some(PasswordRequired);
  }

  lemma ValidateFormInvalidExample()
    ensures ValidateForm(Form("bademail", "abc")) == map[Email := EmailInvalid, Password := PasswordTooShort]
  {
    assert !ValidEmail("bademail") by {
      assert '@' !in "bademail";
    }
    assert !Blank("bademail") by {
      assert !IsSpace("bademail"[0]);
    }
    assert EmailError("bademail") == Some(EmailInvalid);
    assert Utf16Length("abc") == 3;
    assert PasswordError("abc") == Some(PasswordTooShort);
  }

  lemma ValidateFormValidExample()
    ensures ValidateForm(Form("a@b.com", "secret")) == map[]
  {
    EmailExamples();
    assert Utf16Length("secret") == 6;
  }
}

=== FILE: profile_page.dfy ===
/** The profile page's logic: the effect's redirect/fetch decision, the render
    decision, `handleLogout`, the avatar initials and the timestamp and user-id
    fallbacks. */
module ProfilePage {
  import opened Js
  import opened AuthContext
  import LoginPage

  const LoginRoute := "/login"
  const MissingTimestamp := "N/A"

  /** What the effect does on a render. */
  datatype EffectAction = NavigateToLogin | CallFetchProfile | NoEffect

  /** The effect: unauthenticated visitors are sent to the login page;
      otherwise the profile is fetched when there is a token but no user yet. */
  function ProfileEffect(s: Session): (a: EffectAction)
    ensures a == NavigateToLogin <==> !s.isAuthenticated
    ensures a == CallFetchProfile <==> s.isAuthenticated && s.user.None? && Truthy(s.token)
  {
    if !s.isAuthenticated then NavigateToLogin
    else if s.user.None? && Truthy(s.token) then CallFetchProfile
    else NoEffect
  }

  /** A fetch the effect triggers always has a token to send, so it reaches
      the network; a successful one loads the user and the effect settles,
      an unauthorized one sends the visitor to the login page, and any other
      failure leaves the page on its spinner with the fetch still wanted. */
  lemma EffectFetchSettles(s: Session, o: Outcome<User>)
    requires Synced(s)
    requires ProfileEffect(s) == CallFetchProfile
    ensures ProfileRequest(s) == Some("Bearer " + s.token.value)
    ensures o.Ok? ==> ProfileEffect(FetchProfile(s, o).session) == NoEffect
    ensures Unauthorized(o) ==> ProfileEffect(FetchProfile(s, o).session) == NavigateToLogin
    ensures !o.Ok? && !Unauthorized(o) ==>
      RenderProfile(FetchProfile(s, o).session) == LoadingSpinner
      && ProfileEffect(FetchProfile(s, o).session) == CallFetchProfile
  {
  }

  /** Once the session is synchronised, `isAuthenticated` already implies a
      token, so the effect fetches exactly when no user is loaded. */
  lemma SyncedEffectFetchesWithoutUser(s: Session)
    requires Synced(s)
    ensures ProfileEffect(s) == CallFetchProfile <==> s.isAuthenticated && s.user.None?
  {
  }

  /** The login and profile pages never send a session to each other:
      exactly one of them keeps it, and once the session is synchronised the
      one that keeps it is decided by the token. */
  lemma NoRedirectLoop(s: Session)
    ensures LoginPage.RenderLogin(s) == LoginPage.RedirectToProfile <==> ProfileEffect(s) != NavigateToLogin
    ensures Synced(s) ==> (LoginPage.RenderLogin(s) == LoginPage.RedirectToProfile <==> Truthy(s.token))
  {
  }

  /** What the page renders. */
  datatype ProfileView = RenderNothing | LoadingSpinner | ProfileCard(user: User)

  function RenderProfile(s: Session): (v: ProfileView)
    ensures v == RenderNothing <==> !s.isAuthenticated
    ensures v == LoadingSpinner <==> s.isAuthenticated && (s.loading || s.user.None?)
    ensures v.ProfileCard? <==> s.isAuthenticated && !s.loading && s.user.Some?
    ensures v.ProfileCard? ==> v.user == s.user.value
  {
    if !s.isAuthenticated then RenderNothing
    else if s.loading || s.user.None? then LoadingSpinner
    else ProfileCard(s.user.value)
  }

  /** `handleLogout`: `logout()` runs first, then navigation to the login
      page, which therefore sees an unauthenticated session and does not send
      the visitor back. The logout buttons live on the card, which only shows
      when nothing is loading, so from there the login form is what appears. */
  datatype LogoutFlow = LogoutFlow(session: Session, navigateTo: string)

  function HandleLogout(s: Session): (r: LogoutFlow)
    ensures r.session == Logout(s)
    ensures r.navigateTo == LoginRoute
    ensures PhaseOf(r.session) == Anonymous
    ensures Synced(s) ==> Synced(r.session)
    ensures LoginPage.RenderLogin(r.session) != LoginPage.RedirectToProfile
    ensures ProfileEffect(r.session) == NavigateToLogin && RenderProfile(r.session) == RenderNothing
    ensures RenderProfile(s).ProfileCard? ==> LoginPage.RenderLogin(r.session) == LoginPage.LoginFormView
  {
    LogoutFlow(Logout(s), LoginRoute)
  }

  /** The "Account Created" and "Last Updated" cells: a falsy timestamp shows
      "N/A"; a present one goes through the page's date formatting. */
  function DisplayTimestamp(t: Option<string>, formatDate: string -> string): (shown: string)
    ensures !Truthy(t) ==> shown == MissingTimestamp
    ensures Truthy(t) ==> shown == formatDate(t.value)
  {
    if Truthy(t) then formatDate(t.value) else MissingTimestamp
  }

  /** The "User ID" row appears only for a truthy `_id`. */
  function ShowsUserId(u: User): (shown: bool)
    ensures shown <==> u.id.Some? && u.id.value != ""
  {
    Truthy(u.id)
  }

  /** After a successful fetch the card shows the fetched user: its id row
      exactly when that user's `_id` is truthy, and "N/A" in each date cell
      whose timestamp the server left out or sent empty. */
  lemma FetchedUserFillsCard(s: Session, u: User, formatDate: string -> string)
    requires Synced(s) && Truthy(s.token)
    ensures var v := RenderProfile(FetchProfile(s, Ok(u)).session);
      && v == ProfileCard(u)
      && (ShowsUserId(v.user) <==> Truthy(u.id))
      && (!Truthy(u.createdAt) ==> DisplayTimestamp(v.user.createdAt, formatDate) == MissingTimestamp)
      && (Truthy(u.createdAt) ==> DisplayTimestamp(v.user.createdAt, formatDate) == formatDate(u.createdAt.value))
      && (!Truthy(u.updatedAt) ==> DisplayTimestamp(v.user.updatedAt, formatDate) == MissingTimestamp)
      && (Truthy(u.updatedAt) ==> DisplayTimestamp(v.user.updatedAt, formatDate) == formatDate(u.updatedAt.value))
  {
  }

  /** `name.split(" ")`: the pieces between single spaces, empty pieces kept. */
  function Split(s: string): (pieces: seq<string>)
    ensures |pieces| >= 1
    ensures forall k | 0 <= k < |pieces| :: ' ' !in pieces[k]
  {
    if |s| == 0 then [""]
    else if s[0] == ' ' then [""] + Split(s[1..])
    else
      var rest := Split(s[1..]);
      [[s[0]] + rest[0]] + rest[1..]
  }

  /** `pieces.join(" ")`. */
  function Join(pieces: seq<string>): string
    requires |pieces| >= 1
  {
    if |pieces| == 1 then pieces[0] else pieces[0] + " " + Join(pieces[1..])
  }

  lemma JoinCons(p: string, ps: seq<string>)
    requires |ps| >= 1
    ensures Join([p] + ps) == p + " " + Join(ps)
  {
    assert ([p] + ps)[1..] == ps;
  }

  lemma AppendAssoc(c: char, head: string, rest: string)
    ensures ([c] + head) + " " + rest == [c] + (head + " " + rest)
  {
  }

  /** Extending the first piece by a character extends the joined text by it. */
  lemma JoinExtendFirst(c: char, ps: seq<string>)
    requires |ps| >= 1
    ensures Join([[c] + ps[0]] + ps[1..]) == [c] + Join(ps)
  {
    var head, tail := ps[0], ps[1..];
    assert ps == [head] + tail;
    if |tail| == 0 {
      assert [[c] + head] + tail == [[c] + head];
    } else {
      JoinCons([c] + head, tail);
      JoinCons(head, tail);
      AppendAssoc(c, head, Join(tail));
    }
  }

  /** Splitting loses nothing: joining the pieces back gives the name. */
  lemma {:induction false} JoinSplit(s: string)
    ensures Join(Split(s)) == s
  {
    if |s| > 0 {
      JoinSplit(s[1..]);
      if s[0] == ' ' {
        JoinCons("", Split(s[1..]));
      } else {
        JoinExtendFirst(s[0], Split(s[1..]));
      }
      assert s == [s[0]] + s[1..];
    }
  }

  /** `.map((n) => n[0]).join("")`: an empty piece yields `undefined`, which
      `join` renders as nothing. */
  function FirstChars(pieces: seq<string>): (r: string)
    ensures |r| <= |pieces|
  {
    if |pieces| == 0 then ""
    else (if pieces[0] == "" then "" else [pieces[0][0]]) + FirstChars(pieces[1..])
  }

  /** The avatar text: `name.split(" ").map((n) => n[0]).join("").toUpperCase()`. */
  function Initials(name: string): (r: string)
    ensures |r| <= |Split(name)|
  {
    UpperAsciiString(FirstChars(Split(name)))
  }

  /** Position `i` starts a word: a non-space that begins the name or follows a space. */
  predicate WordStart(s: string, i: nat)
    requires i < |s|
  {
    s[i] != ' ' && (i == 0 || s[i - 1] == ' ')
  }

  /** The characters at word starts from position `i` on, in order. */
  function WordStartsFrom(s: string, i: nat): string
    requires i <= |s|
    decreases |s| - i
  {
    if i == |s| then "" else (if WordStart(s, i) then [s[i]] else "") + WordStartsFrom(s, i + 1)
  }

  lemma {:induction false} FirstCharsOfSuffix(s: string, i: nat)
    requires i <= |s|
    ensures (i == 0 || s[i - 1] == ' ') ==> FirstChars(Split(s[i..])) == WordStartsFrom(s, i)
    ensures (i > 0 && s[i - 1] != ' ') ==> FirstChars(Split(s[i..])[1..]) == WordStartsFrom(s, i)
    decreases |s| - i
  {
    if i == |s| {
      assert s[i..] == "";
    } else {
      var t := s[i..];
      assert t[0] == s[i] && t[1..] == s[i + 1..];
      FirstCharsOfSuffix(s, i + 1);
      var rest := Split(s[i + 1..]);
      if s[i] == ' ' {
        assert Split(t) == [""] + rest;
        assert !WordStart(s, i);
        assert FirstChars(Split(t)) == FirstChars(rest);
        assert Split(t)[1..] == rest;
      } else {
        assert Split(t) == [[s[i]] + rest[0]] + rest[1..];
        assert Split(t)[1..] == rest[1..];
        assert FirstChars(Split(t)) == [s[i]] + FirstChars(rest[1..]);
      }
    }
  }

  /** The initials are, in order, the upper-cased first characters of the
      space-separated words: one per non-empty piece, none for the empty
      pieces that repeated, leading or trailing spaces produce. */
  lemma InitialsAreWordStarts(name: string)
    ensures Initials(name) == UpperAsciiString(WordStartsFrom(name, 0))
  {
    FirstCharsOfSuffix(name, 0);
    assert name[0..] == name;
  }

  lemma InitialsExample()
    ensures Initials("jo doe") == "JD"
  {
    var name := "jo doe";
    InitialsAreWordStarts(name);
    assert WordStartsFrom(name, 4) == "";
    assert WordStartsFrom(name, 3) == "d";
    assert WordStartsFrom(name, 1) == "d";
    assert WordStartsFrom(name, 0) == "jd";
    UpperExample();
  }

  lemma InitialsOfSpacedNameExample()
    ensures Initials(" a  b ") == "AB"
  {
    var name := " a  b ";
    InitialsAreWordStarts(name);
    assert WordStartsFrom(name, 5) == "";
    assert WordStartsFrom(name, 4) == "b";
    assert WordStartsFrom(name, 2) == "b";
    assert WordStartsFrom(name, 1) == "ab";
    assert WordStartsFrom(name, 0) == "ab";
    UpperExample();
  }

  lemma UpperExample()
    ensures UpperAsciiString("jd") == "JD"
    ensures UpperAsciiString("ab") == "AB"
  {
    assert UpperAscii('j') == 'J' && UpperAscii('d') == 'D';
    assert UpperAscii('a') == 'A' && UpperAscii('b') == 'B';
  }
}
